=== FILE: README.md ===
# MateBot money transactions, modelled in Dafny

This project models the core of MateBot's `mate_bot/state/transactions.py`:

- `Transaction`: a transfer of a positive amount of Cent from one user to
  another, with a one-shot `commit()` that appends one row to the
  `transactions` table and rewrites both users' cached balances.
- `TransactionLog`: a user's history, read from that table and filtered by
  direction (`mode`). It reconciles the history against the user's cached
  balance (`validate`, the `valid` flag). It also picks the sign,
  direction and partner of each row for `to_string`.

The database is an immutable `Ledger.Store`. It holds a map from user id
to cached balance, the transactions table as a sequence in insertion order,
and the next auto-increment id. `commit()` is a pure transition on
(transaction, store). The connection's behaviour during one call is a
parameter, `Transfer.Env`. It says which database step raises, if any, and
whether `SELECT LAST_INSERT_ID()` returned a row. A call that fails before
the database commit leaves the store as it was, because no database commit
was issued on that path (a failing refresh or insert happens before any
connection is open; later failures close the connection uncommitted). A call whose reload of the two users fails
after the database commit leaves the transfer durable, and still raises.

Modules:

- `Wrappers`: `Option`, `Result`.
- `Ledger`: store, entries, the signed effect of an entry (`Effect`),
  the net of a history (`Net`), the sum of balances (`Total`), and the
  invariants `Reconciled` and `Closed`.
- `Transfer`: the constructor, `get()`, and `commit()` twice. The two
  versions are `CommitAsWritten`, which follows the code as written, and
  `Commit`, which follows the evident intent. See Findings.
- `History`: the direction query, the `validate` fold, the constructor
  with its `valid` flag, and the per-row choices of `to_string`.
- `Reconciliation`: runs of any number of `commit()` calls and the
  reconciliation guarantee.
- `Scenarios`: small concrete databases.

Two behaviours are kept exactly as the code has them:

- Self-transfers (`src == dst`) are accepted. Both balance writes are
  computed from the same balance read before either write, and the second
  write wins. The account therefore ends at `old + amount`, and the sum of
  all balances grows by `amount`. The validation fold checks the receiver
  first, so it also counts such a row as `+amount`, and reconciliation
  still holds.
- A failed commit is not always retryable as written (see Findings). Both
  variants are modelled, and the reconciliation guarantee is proved for
  both.

## Model

| member | source | states |
|---|---|---|
| Transfer.NewTransaction | mate_bot/state/transactions.py:45-56 | construction fails exactly when the amount is not positive; otherwise the transaction carries the given parties, amount and reason, is uncommitted and has no id |
| Transfer.GetAfterCommit | mate_bot/state/transactions.py:58-70 | a new transaction is falsy and `get()` gives no id; after a completed commit it is truthy and `get()` gives the id of the appended row when the database reported one |
| Transfer.CommitAsWritten | mate_bot/state/transactions.py:112-163 | commit as written: non-positive amounts raise; a transaction already committed or holding an id is skipped and left unchanged; the database commit goes through exactly when both users exist and nothing before it fails, and then one row (src, dst, amount, reason) is appended and every balance moves by that row's signed effect; otherwise the store is unchanged; once an id was read back it survives every later failure (a balance write, the database commit, the reload after it), and only such a failure between known users leaves an id behind; an unknown party raises before any id is read, so a retry stays possible; a failure of the reload after the database commit leaves the transaction uncommitted: holding the id when one was read back (a retry is skipped), pending otherwise (a retry books it again) |
| Transfer.Commit | mate_bot/state/transactions.py:120-159 | commit as intended: the database commit goes through exactly when the amount is positive, the transaction is uncommitted, both users exist and nothing before it fails; it then appends one row, moves every balance by that row's signed effect, and marks the transaction committed with the id, even if the reload afterwards fails; every other outcome leaves transaction and store unchanged |
| Transfer.CommitTotal | mate_bot/state/transactions.py:144-153 | in both variants, after the database commit, for src != dst the sender has lost exactly `amount`, the receiver has gained exactly `amount` and the total is conserved; for a self-transfer the account gains `amount` and the total grows by `amount` |
| Transfer.ConservationIffDistinct | mate_bot/state/transactions.py:144-153 | in both variants a finalised commit conserves the sum of balances if and only if sender and receiver differ |
| Transfer.CommitTwice | mate_bot/state/transactions.py:125 | in both variants a commit after a completed one is skipped and changes neither the ledger, nor any balance, nor the transaction or its id |
| Transfer.AsWrittenAgreesWhenNoLateFailure | mate_bot/state/transactions.py:125-159 | on a pending transaction the as-written and intended commits agree unless a balance write, the database commit or the reload after it fails |
| Transfer.RetryBlockedAfterLateFailure | mate_bot/state/transactions.py:125-163 | as written, after a balance write or the database commit fails with the id already read back, the store is unchanged and every later commit is a silent no-op |
| Transfer.DuplicateAfterPostCommitFailure | mate_bot/state/transactions.py:125-159 | as written, when no id was read back and the reload after the database commit raises, the transaction stays pending and an undisturbed retry appends a second identical transfer and moves the money twice |
| Transfer.RetryAfterFailure | mate_bot/state/transactions.py:125-163 | as intended, a retry after a failure before the database commit behaves exactly like a first attempt and commits when nothing fails; after a failure of the reload that follows the database commit the retry is skipped, so the transfer happens once |
| History.Query | mate_bot/state/transactions.py:197-211 | mode < 0 returns exactly the rows the user sent, mode > 0 exactly the rows the user received, mode 0 those naming the user at all |
| History.QueryAppend | mate_bot/state/transactions.py:197-211 | the query distributes over concatenation, so the store's order is kept |
| History.QuerySingle | mate_bot/state/transactions.py:197-211 | a single row is kept exactly when the direction filter selects it |
| History.QueryNone | mate_bot/state/transactions.py:197-211 | with no selected row the query returns no rows |
| History.NetQuery | mate_bot/state/transactions.py:208-211 | the both-directions log has the same net as the whole ledger for that user |
| History.Fold | mate_bot/state/transactions.py:297-303 | the loop succeeds exactly when every row names the user, and then yields start plus received minus sent; otherwise it raises on the foreign row |
| History.Validate | mate_bot/state/transactions.py:280-305 | no verdict for a non-zero mode; an unknown user raises; for a known user a foreign row raises, and when every row names the user the verdict is true exactly when start plus the log's net equals the cached balance |
| History.Open | mate_bot/state/transactions.py:180-218 | the log holds the query's rows; it is invalid when there are no rows and the user is unknown; for a non-zero mode `valid` is no verdict; for mode 0 and a known user `valid` is whether the ledger's net equals the balance; it raises only for an unknown user with rows in mode 0, never on a foreign row |
| History.RenderEntry | mate_bot/state/transactions.py:231-245 | the receiver is checked first: incoming rows show the sender as partner and a positive amount; outgoing rows show the receiver and a negative amount; a missing reason shows the placeholder; a row naming neither party raises |
| History.RenderLog | mate_bot/state/transactions.py:230-263 | one line per row in the log's order, none for an empty log; it raises exactly when some row names neither party |
| History.RenderedSumIsNet | mate_bot/state/transactions.py:232-243 | the signed amounts shown add up to the net that `validate` folds |
| Reconciliation.AppliedKeepsSound | mate_bot/state/transactions.py:131-153 | appending the row and writing both balances keeps every balance equal to its ledger net |
| Reconciliation.CommittedIdNamesOneRow | mate_bot/state/transactions.py:137-142 | in a sound store, the id read back after a commit belongs to exactly the appended row and to no other row |
| Reconciliation.CommitKeepsSound | mate_bot/state/transactions.py:120-163 | the intended commit keeps the store reconciled and closed, whatever its outcome |
| Reconciliation.CommitAsWrittenKeepsSound | mate_bot/state/transactions.py:120-163 | the as-written commit keeps the store reconciled and closed, whatever its outcome |
| Reconciliation.RunKeepsSound | mate_bot/state/transactions.py:112-163 | any sequence of intended commits keeps the store reconciled and the set of users fixed |
| Reconciliation.RunAsWrittenKeepsSound | mate_bot/state/transactions.py:112-163 | any sequence of as-written commits keeps the store reconciled and the set of users fixed |
| Reconciliation.SoundLogsValidate | mate_bot/state/transactions.py:213-218 | in a reconciled store every known user's full log is valid and `validate(0)` holds; an unknown user gets an empty, invalid log |
| Reconciliation.ReconciliationAlwaysHolds | mate_bot/state/transactions.py:292-305 | from zero balances and an empty ledger, after any sequence of as-written commits (self-transfers, repeats and failures included), every known user's full log is valid and `validate(0)` is true |
| Reconciliation.IntendedReconciliationAlwaysHolds | mate_bot/state/transactions.py:292-305 | the same guarantee for any sequence of intended commits |
| Scenarios.HistoryReconstruction | mate_bot/state/transactions.py:280-305 | receiving 500 and sending 200 reconstructs 300: a cached 300 is valid, a cached 250 is not |
| Scenarios.DirectionalFiltering | mate_bot/state/transactions.py:197-211 | outgoing-only and incoming-only logs each hold the one matching row and give no verdict |
| Scenarios.EmptyHistory | mate_bot/state/transactions.py:213-218 | an empty history is valid for a known user and renders no lines, and it is invalid for an unknown user |
| Scenarios.Rejection | mate_bot/state/transactions.py:45-46 | amounts 0 and -100 are rejected at construction |
| Scenarios.SelfTransfer | mate_bot/state/transactions.py:144-153 | a self-transfer of 100 from balance 0 ends at 100 and still validates |
| Scenarios.LateFailureRetry | mate_bot/state/transactions.py:125-163 | a concrete late failure: as written the retry does nothing, as intended it moves the money |
| Scenarios.PostCommitFailureRetry | mate_bot/state/transactions.py:141-159 | a concrete reload failure after the database commit with no id read back: as written the retry books the 100 a second time, as intended it is skipped |

## Left out

- Database plumbing: the connection, `execute_no_commit`, `LAST_INSERT_ID()`, and closing the connection. The model keeps only their observable effect: a step may raise, and an id may be missing. That closing an uncommitted connection discards its writes is an assumption about `dbhelper`, which is not part of this model.
- Transfer.NewTransaction: amounts are integers. A non-integer amount such as 0.5 or 1.9, which the source accepts and truncates with `int()` (so 0.5 becomes 0 and is only rejected by `commit()`), is not modelled.
- Rolled-back inserts: these may consume an auto-increment id in a real database. The model does not advance `nextId` on a failed attempt.
- User directory: `update()`, `get_tid_from_uid`, `get_name_from_uid` and `MateBotUser(...).balance` live in `user.py`, which is not part of this model. A user is known exactly when it has a balance in the store, and `get_tid_from_uid(uid) is None` is read as "uid has no user row"; a user row without a Telegram id, if one can exist, would make an empty history invalid in the source but valid in the model. Refreshing an unknown party is modelled as raising `Transfer.UnknownUser`; reading an unknown user's balance in `validate` as raising `History.UserNotFound`.
- In-memory balance caches: the cached values of the user objects are not modelled; only whether a refresh before or after the commit raises is. The store is the single source of balances, read at commit time.
- Row order: the three queries have no `ORDER BY`; the model takes the table's insertion order as the order of the fetched rows. The `validate` verdict does not depend on that order, but the order of the `to_string` lines does.
- Runtime type checks (`isinstance`, `TypeError`) in both constructors: Dafny's types rule these inputs out.
- The trivial getters (`src`, `dst`, `amount`, `reason`, `committed`, `uid`, `history`): these are datatype fields.
- Text rendering in `to_string`: the division by 100 into floats, `{:>+6.2f}` formatting, `strftime`, time-zone conversion and partner names. Only the per-row direction, sign, partner id and reason are modelled, with amounts kept in Cent.
- `to_json` and the `registered` timestamp column: the conversion calls a foreign datetime library.
- Concurrency and isolation between transactions: these are left to the database.
- `mate_bot/err.py`: it only declares exception classes without behaviour.

## Findings

| source | as written | input that shows it | evidently intended | confidence | as-written member | corrected member |
|---|---|---|---|---|---|---|
| mate_bot/state/transactions.py:125-163 | `commit()` runs only while `_id is None`, and `_id` is set at line 142, before the balance writes and `connection.commit()`. | A pending transfer where `connection.commit()` (or a balance update) raises after `LAST_INSERT_ID()` returned a row. The database rolls back, but `_id` stays set and `_committed` stays false, so every later `commit()` returns without doing anything. | A commit that fails before the database commit leaves the transaction unchanged and retryable; the id is recorded only together with the committed flag. | medium; not executed | Transfer.RetryBlockedAfterLateFailure | Transfer.RetryAfterFailure |
| mate_bot/state/transactions.py:141-159 | `_committed` is set only after the users are reloaded at lines 157-158, which run after `connection.commit()` at line 155. | A pending transfer where `LAST_INSERT_ID()` returns no row and the reload at line 157 raises. The row and both balance writes are already durable, but `_committed` is false and `_id` is None. A later `commit()` passes the guard at line 125, inserts a second row and moves the money again. | Once the database commit went through, the transaction is committed, so a retry is skipped and the transfer happens once. | low (`LAST_INSERT_ID()` rarely returns no row); not executed | Transfer.DuplicateAfterPostCommitFailure | Transfer.RetryAfterFailure |

=== FILE: history.dfy ===
/** `TransactionLog`: the history of one user read from the ledger, filtered
    by direction, and the reconciliation of that history against the
    user's cached balance. */
module History {
  import opened Wrappers
  import opened Ledger

  /** Exceptions raised while building or validating a log. */
  datatype Error =
    | UserNotFound  // the user's balance cannot be read
    | ForeignEntry  // an entry names neither the sender nor the receiver (RuntimeError)

  /** A transaction log: the user it was built for, the direction mode,
      the fetched rows in store order and the `valid` flag, which is
      `None` where Python's `True and None` yields `None`. */
  datatype Log = Log(uid: Uid, mode: int, entries: seq<Entry>, valid: Option<bool>)

  /** Placeholder rendered for an entry without a reason. */
  const NullReason: string := "<no description>"

  /** The row filter of the query for `mode`: negative selects the rows the
      user sent, positive those the user received, zero both. */
  predicate Selected(e: Entry, uid: Uid, mode: int) {
    if mode < 0 then e.sender == uid
    else if mode > 0 then e.receiver == uid
    else Names(e, uid)
  }

  /** The rows the query returns, in the store's order. */
  function Query(es: seq<Entry>, uid: Uid, mode: int): (r: seq<Entry>)
    ensures mode < 0 ==> forall e :: e in r <==> e in es && e.sender == uid
    ensures mode > 0 ==> forall e :: e in r <==> e in es && e.receiver == uid
    ensures mode == 0 ==> forall e :: e in r <==> e in es && Names(e, uid)
    ensures |r| <= |es|
    decreases |es|
  {
    if |es| == 0 then []
    else
      var init := es[..|es| - 1];
      var last := es[|es| - 1];
      assert es == init + [last];
      var q := Query(init, uid, mode);
      if Selected(last, uid, mode) then q + [last] else q
  }

  /** The query distributes over concatenation: later rows come after
      earlier ones, so the store's order is kept. */
  lemma {:induction false} QueryAppend(a: seq<Entry>, b: seq<Entry>, uid: Uid, mode: int)
    ensures Query(a + b, uid, mode) == Query(a, uid, mode) + Query(b, uid, mode)
    decreases |b|
  {
    if |b| == 0 {
      assert a + b == a;
    } else {
      var b' := b[..|b| - 1];
      assert (a + b)[..|a + b| - 1] == a + b';
      QueryAppend(a, b', uid, mode);
    }
  }

  /** On a single row the query keeps it exactly when the filter selects it;
      with `QueryAppend` this fixes the query on every sequence. */
  lemma QuerySingle(e: Entry, uid: Uid, mode: int)
    ensures Query([e], uid, mode) == if Selected(e, uid, mode) then [e] else []
  {
  }

  /** No row is selected, so the query returns nothing. */
  lemma {:induction false} QueryNone(es: seq<Entry>, uid: Uid, mode: int)
    requires forall i :: 0 <= i < |es| ==> !Selected(es[i], uid, mode)
    ensures Query(es, uid, mode) == []
    decreases |es|
  {
    if |es| > 0 {
      QueryNone(es[..|es| - 1], uid, mode);
    }
  }

  /** The rows the query drops do not move the user's balance, so the
      full-direction log has the same net as the whole ledger. */
  lemma {:induction false} NetQuery(es: seq<Entry>, uid: Uid)
    ensures Net(uid, Query(es, uid, 0)) == Net(uid, es)
    decreases |es|
  {
    if |es| > 0 {
      var init := es[..|es| - 1];
      var last := es[|es| - 1];
      NetQuery(init, uid);
      if Selected(last, uid, 0) {
        var q := Query(init, uid, 0);
        assert (q + [last])[..|q + [last]| - 1] == q;
      }
    }
  }

  /** The loop of `validate`: starting at `acc`, add the amount of every row
      the user received and subtract that of every row the user sent,
      checking the receiver first; a row naming neither raises. */
  function Fold(uid: Uid, es: seq<Entry>, acc: int): (r: Result<int, Error>)
    ensures r.Success? <==> forall i :: 0 <= i < |es| ==> Names(es[i], uid)
    ensures r.Failure? ==> r.error == ForeignEntry
    ensures r.Success? ==> r.value == acc + Net(uid, es)
    decreases |es|
  {
    if |es| == 0 then Success(acc)
    else
      var e := es[0];
      assert es == [e] + es[1..];
      NetCons(uid, e, es[1..]);
      if e.receiver == uid then Fold(uid, es[1..], acc + e.amount)
      else if e.sender == uid then Fold(uid, es[1..], acc - e.amount)
      else Failure(ForeignEntry)
  }

  /** `validate(start)`: no verdict for a one-direction log; otherwise
      whether `start` plus the log's net equals the cached balance. */
  function Validate(log: Log, s: Store, start: int): (r: Result<Option<bool>, Error>)
    ensures log.mode != 0 ==> r == Success(None)
    ensures log.mode == 0 && log.uid !in s.balances ==> r == Failure(UserNotFound)
    ensures log.mode == 0 && log.uid in s.balances ==>
      (r == Failure(ForeignEntry) <==> exists i :: 0 <= i < |log.entries| && !Names(log.entries[i], log.uid))
    ensures (log.mode == 0 && log.uid in s.balances &&
             forall i :: 0 <= i < |log.entries| ==> Names(log.entries[i], log.uid)) ==>
      r == Success(Some(start + Net(log.uid, log.entries) == s.balances[log.uid]))
  {
    if log.mode != 0 then Success(None)
    else if log.uid !in s.balances then Failure(UserNotFound)
    else match Fold(log.uid, log.entries, start)
      case Failure(e) => Failure(e)
      case Success(n) => Success(Some(n == s.balances[log.uid]))
  }

  /** The constructor: run the query for `mode`; the log is invalid when
      the query returned no rows and the user is unknown (the Python `and`
      then skips `validate`); otherwise `valid` is the result of
      `validate()`, whose exceptions propagate. */
  function Open(s: Store, uid: Uid, mode: int): (r: Result<Log, Error>)
    ensures r.Success? ==>
      r.value.uid == uid && r.value.mode == mode && r.value.entries == Query(s.entries, uid, mode)
    ensures |Query(s.entries, uid, mode)| == 0 && uid !in s.balances ==> r.Success? && r.value.valid == Some(false)
    ensures mode != 0 && (|Query(s.entries, uid, mode)| > 0 || uid in s.balances) ==> r.Success? && r.value.valid == None
    ensures r.Failure? <==> mode == 0 && uid !in s.balances && |Query(s.entries, uid, mode)| > 0
    ensures r.Failure? ==> r.error == UserNotFound
    ensures mode == 0 && uid in s.balances ==>
      r.Success? && r.value.valid == Some(Net(uid, s.entries) == s.balances[uid])
  {
    var q := Query(s.entries, uid, mode);
    if |q| == 0 && uid !in s.balances then Success(Log(uid, mode, q, Some(false)))
    else
      assert mode == 0 ==> forall i :: 0 <= i < |q| ==> Names(q[i], uid) by {
        if mode == 0 {
          forall i | 0 <= i < |q| ensures Names(q[i], uid) { assert q[i] in q; }
        }
      }
      NetQuery(s.entries, uid);
      match Validate(Log(uid, mode, q, None), s, 0)
      case Failure(e) => Failure(e)
      case Success(v) => Success(Log(uid, mode, q, v))
  }

  /** One line of `to_string` without its text formatting: the direction
      (`<<` incoming, `>>` outgoing), the signed amount in Cent, the partner
      and the reason with the placeholder for a missing one. */
  datatype Line = Line(incoming: bool, signed: int, partner: Uid, reason: string)

  /** The per-entry choice of `to_string`: receiver checked first, sign
      negative when the user sent the money; a row naming neither raises. */
  function RenderEntry(uid: Uid, e: Entry): (r: Result<Line, Error>)
    ensures r.Success? <==> Names(e, uid)
    ensures r.Failure? ==> r.error == ForeignEntry
    ensures r.Success? ==> r.value.signed == Effect(uid, e)
    ensures r.Success? ==> (r.value.incoming <==> e.receiver == uid)
    ensures r.Success? && r.value.incoming ==> r.value.partner == e.sender
    ensures r.Success? && !r.value.incoming ==> r.value.partner == e.receiver && e.sender == uid
    ensures r.Success? ==> r.value.reason == (if e.reason.Some? then e.reason.value else NullReason)
  {
    var reason := if e.reason.None? then NullReason else e.reason.value;
    if e.receiver == uid then Success(Line(true, e.amount, e.sender, reason))
    else if e.sender == uid then Success(Line(false, -e.amount, e.receiver, reason))
    else Failure(ForeignEntry)
  }

  /** The lines of `to_string` for a whole log, in the log's order; an empty
      log renders as no lines (the empty string). */
  function RenderLog(uid: Uid, es: seq<Entry>): (r: Result<seq<Line>, Error>)
    ensures r.Success? <==> forall i :: 0 <= i < |es| ==> Names(es[i], uid)
    ensures r.Failure? ==> r.error == ForeignEntry
    ensures r.Success? ==> |r.value| == |es|
    ensures r.Success? ==> forall i :: 0 <= i < |es| ==> RenderEntry(uid, es[i]) == Success(r.value[i])
    decreases |es|
  {
    if |es| == 0 then Success([])
    else match RenderEntry(uid, es[0])
      case Failure(e) => Failure(e)
      case Success(line) =>
        match RenderLog(uid, es[1..])
        case Failure(e) => Failure(e)
        case Success(rest) => Success([line] + rest)
  }

  function SumSigned(lines: seq<Line>): (total: int)
    decreases |lines|
  {
    if |lines| == 0 then 0 else lines[0].signed + SumSigned(lines[1..])
  }

  /** The signed amounts `to_string` shows add up to the amount `validate`
      folds, so the rendered history explains the verdict. */
  lemma {:induction false} RenderedSumIsNet(uid: Uid, es: seq<Entry>)
    requires RenderLog(uid, es).Success?
    ensures SumSigned(RenderLog(uid, es).value) == Net(uid, es)
    ensures Fold(uid, es, 0) == Success(SumSigned(RenderLog(uid, es).value))
    decreases |es|
  {
    if |es| > 0 {
      assert es == [es[0]] + es[1..];
      NetCons(uid, es[0], es[1..]);
      RenderedSumIsNet(uid, es[1..]);
    }
  }
}

=== FILE: ledger.dfy ===
/** The abstract database the transfer core runs against: cached user
    balances, the append-only `transactions` table and the auto-increment
    id supply, together with the ledger arithmetic used to reconcile them. */
module Ledger {
  import opened Wrappers

  /** Internal user id (the `id` column of the users table). */
  type Uid = int

  /** One row of the `transactions` table; amounts are in Cent. The
      `registered` timestamp column is not modelled. */
  datatype Entry = Entry(id: nat, sender: Uid, receiver: Uid, amount: int, reason: Option<string>)

  /** Database state: the cached balance of every known user, the
      transactions table in insertion (primary-key) order, and the id the
      next inserted row will receive. */
  datatype Store = Store(balances: map<Uid, int>, entries: seq<Entry>, nextId: nat)

  /** True if `uid` takes part in `e`, as sender or as receiver. */
  predicate Names(e: Entry, uid: Uid) {
    e.sender == uid || e.receiver == uid
  }

  /** Signed effect of one entry on the balance of `uid`. The receiver is
      checked first, so a self-transfer counts as `+amount`. */
  function Effect(uid: Uid, e: Entry): (d: int) {
    if e.receiver == uid then e.amount
    else if e.sender == uid then -e.amount
    else 0
  }

  /** Net amount the entries move into the account of `uid`. */
  function Net(uid: Uid, es: seq<Entry>): (n: int)
    decreases |es|
  {
    if |es| == 0 then 0 else Net(uid, es[..|es| - 1]) + Effect(uid, es[|es| - 1])
  }

  lemma {:induction false} NetAppend(uid: Uid, a: seq<Entry>, b: seq<Entry>)
    ensures Net(uid, a + b) == Net(uid, a) + Net(uid, b)
    decreases |b|
  {
    if |b| == 0 {
      assert a + b == a;
    } else {
      var b' := b[..|b| - 1];
      assert (a + b)[..|a + b| - 1] == a + b';
      NetAppend(uid, a, b');
    }
  }

  lemma NetCons(uid: Uid, e: Entry, es: seq<Entry>)
    ensures Net(uid, [e] + es) == Effect(uid, e) + Net(uid, es)
  {
    NetAppend(uid, [e], es);
    assert [e][..0] == [];
  }

  /** Sum of all balances. */
  ghost function Total(m: map<Uid, int>): (t: int)
    decreases |m|
  {
    if m == map[] then 0
    else
      assert exists k :: k in m by {
        if forall k :: k !in m { assert false; }
      }
      var k :| k in m; m[k] + Total(m - {k})
  }

  lemma {:induction false} TotalRemove(m: map<Uid, int>, k: Uid)
    requires k in m
    ensures Total(m) == m[k] + Total(m - {k})
    decreases |m|
  {
    var j :| j in m && Total(m) == m[j] + Total(m - {j});
    if j != k {
      var mj := m - {j};
      var mk := m - {k};
      assert k in mj && j in mk;
      TotalRemove(mj, k);
      TotalRemove(mk, j);
      assert mj - {k} == mk - {j};
    }
  }

  lemma TotalUpdate(m: map<Uid, int>, k: Uid, v: int)
    requires k in m
    ensures Total(m[k := v]) == Total(m) - m[k] + v
  {
    TotalRemove(m, k);
    TotalRemove(m[k := v], k);
    assert m[k := v] - {k} == m - {k};
  }

  /** `s'` has the same users as `s`, and every balance changed by the
      signed effect of `e` on that user. */
  predicate BalancesFollow(s: Store, s': Store, e: Entry) {
    s'.balances.Keys == s.balances.Keys &&
    forall u :: u in s.balances ==> s'.balances[u] == s.balances[u] + Effect(u, e)
  }

  /** Every cached balance equals the net of the whole ledger for that user. */
  predicate Reconciled(s: Store) {
    forall u :: u in s.balances ==> s.balances[u] == Net(u, s.entries)
  }

  /** Every entry names known users only; ids grow along the table and
      stay below the next id to hand out. */
  predicate Closed(s: Store) {
    && (forall i :: 0 <= i < |s.entries| ==>
          s.entries[i].sender in s.balances && s.entries[i].receiver in s.balances && s.entries[i].id < s.nextId)
    && (forall i, j :: 0 <= i < j < |s.entries| ==> s.entries[i].id < s.entries[j].id)
  }

  /** A freshly set-up database: every user at balance zero, no transfers yet. */
  predicate Initial(s: Store) {
    (forall u :: u in s.balances ==> s.balances[u] == 0) && s.entries == []
  }
}

=== FILE: reconciliation.dfy ===
/** The ledger-integrity guarantee: whatever commits happen, in whatever
    order, each user's cached balance is explained by the ledger and the
    full-direction log of every user validates. */
module Reconciliation {
  import opened Wrappers
  import opened Ledger
  import opened Transfer
  import opened History

  /** One call of `commit()`: the transaction object it is called on and
      how the database behaves during the call. */
  datatype Call = Call(txn: Transaction, env: Env)

  /** The database after the calls, in order, with the intended commit. */
  function Run(s: Store, calls: seq<Call>): (s': Store)
    decreases |calls|
  {
    if |calls| == 0 then s
    else
      var c := calls[|calls| - 1];
      Commit(c.txn, Run(s, calls[..|calls| - 1]), c.env).store
  }

  /** The database after the calls, in order, with `commit()` as written. */
  function RunAsWritten(s: Store, calls: seq<Call>): (s': Store)
    decreases |calls|
  {
    if |calls| == 0 then s
    else
      var c := calls[|calls| - 1];
      CommitAsWritten(c.txn, RunAsWritten(s, calls[..|calls| - 1]), c.env).store
  }

  /** The invariant every commit keeps: balances explained by the ledger,
      and the ledger naming only known users. */
  predicate Sound(s: Store) {
    Reconciled(s) && Closed(s)
  }

  /** A finalised commit appends one row whose effect is exactly the change
      it made to every balance, so soundness is kept; any other outcome
      leaves the database as it was. */
  lemma AppliedKeepsSound(t: Transaction, s: Store)
    requires Sound(s)
    requires t.src in s.balances && t.dst in s.balances
    ensures Sound(Applied(t, s))
  {
  }

  /** The id `get()` reports after a commit names exactly the row that
      commit appended, and no other row of the table. */
  lemma CommittedIdNamesOneRow(t: Transaction, s: Store, env: Env)
    requires Sound(s)
    requires Finalised(Commit(t, s, env).outcome) && env.idFound
    ensures var r := Commit(t, s, env);
      Get(r.txn).Some? &&
      forall i :: 0 <= i < |r.store.entries| ==> (r.store.entries[i].id == Get(r.txn).value <==> i == |s.entries|)
  {
  }

  lemma CommitKeepsSound(t: Transaction, s: Store, env: Env)
    requires Sound(s)
    ensures Sound(Commit(t, s, env).store)
  {
  }

  lemma CommitAsWrittenKeepsSound(t: Transaction, s: Store, env: Env)
    requires Sound(s)
    ensures Sound(CommitAsWritten(t, s, env).store)
  {
  }

  lemma {:induction false} RunKeepsSound(s: Store, calls: seq<Call>)
    requires Sound(s)
    ensures Sound(Run(s, calls))
    ensures Run(s, calls).balances.Keys == s.balances.Keys
    decreases |calls|
  {
    if |calls| > 0 {
      var c := calls[|calls| - 1];
      RunKeepsSound(s, calls[..|calls| - 1]);
      CommitKeepsSound(c.txn, Run(s, calls[..|calls| - 1]), c.env);
    }
  }

  lemma {:induction false} RunAsWrittenKeepsSound(s: Store, calls: seq<Call>)
    requires Sound(s)
    ensures Sound(RunAsWritten(s, calls))
    ensures RunAsWritten(s, calls).balances.Keys == s.balances.Keys
    decreases |calls|
  {
    if |calls| > 0 {
      var c := calls[|calls| - 1];
      RunAsWrittenKeepsSound(s, calls[..|calls| - 1]);
      CommitAsWrittenKeepsSound(c.txn, RunAsWritten(s, calls[..|calls| - 1]), c.env);
    }
  }

  /** The full-direction log of `uid` opens with a valid flag and
      `validate(0)` on it holds. */
  predicate FullLogValid(s: Store, uid: Uid) {
    Open(s, uid, 0).Success? && Open(s, uid, 0).value.valid == Some(true) &&
    Validate(Open(s, uid, 0).value, s, 0) == Success(Some(true))
  }

  /** In a sound database the full-direction log of a known user is valid
      and `validate(0)` agrees; an unknown user has no rows and gets an
      invalid log. */
  lemma SoundLogsValidate(s: Store, uid: Uid)
    requires Sound(s)
    ensures uid in s.balances ==> FullLogValid(s, uid)
    ensures uid !in s.balances ==>
      Open(s, uid, 0) == Success(Log(uid, 0, [], Some(false)))
  {
    if uid in s.balances {
      NetQuery(s.entries, uid);
    } else {
      QueryNone(s.entries, uid, 0);
    }
  }

  /** Reconciliation always succeeds: from all-zero balances and an empty
      ledger, after any sequence of `commit()` calls as written
      (self-transfers, repeated and failed calls included), every known
      user's log is valid and `validate(0)` holds. */
  lemma {:induction false} ReconciliationAlwaysHolds(init: Store, calls: seq<Call>, uid: Uid)
    requires Initial(init)
    requires uid in init.balances
    ensures FullLogValid(RunAsWritten(init, calls), uid)
  {
    RunAsWrittenKeepsSound(init, calls);
    SoundLogsValidate(RunAsWritten(init, calls), uid);
  }

  /** The same guarantee for the intended `commit()`. */
  lemma {:induction false} IntendedReconciliationAlwaysHolds(init: Store, calls: seq<Call>, uid: Uid)
    requires Initial(init)
    requires uid in init.balances
    ensures FullLogValid(Run(init, calls), uid)
  {
    RunKeepsSound(init, calls);
    SoundLogsValidate(Run(init, calls), uid);
  }
}

=== FILE: scenarios.dfy ===
/** Concrete histories: the reconstruction, filtering, rejection and
    self-transfer cases worked through on small databases. */
module Scenarios {
  import opened Wrappers
  import opened Ledger
  import opened Transfer
  import opened History

  const Received: Entry := Entry(1, 2, 1, 500, None)
  const Sent: Entry := Entry(2, 1, 2, 200, Some("mate"))

  function TwoUsers(balance: int): (s: Store) {
    Store(map[1 := balance, 2 := -300], [Received, Sent], 3)
  }

  /** User 1 received 500 and sent 200: the recomputed balance is 300, so
      a cached 300 validates and a cached 250 does not. */
  lemma HistoryReconstruction()
    ensures Open(TwoUsers(300), 1, 0) == Success(Log(1, 0, [Received, Sent], Some(true)))
    ensures Open(TwoUsers(250), 1, 0) == Success(Log(1, 0, [Received, Sent], Some(false)))
  {
    var es := [Received, Sent];
    assert es[..1] == [Received];
    assert [Received][..0] == [];
    assert Query(es, 1, 0) == es;
    assert Fold(1, es, 0) == Success(300) by {
      assert es[1..] == [Sent];
    }
  }

  /** Outgoing-only returns the sent row, incoming-only the received row,
      and neither mode gives a verdict. */
  lemma DirectionalFiltering()
    ensures Open(TwoUsers(300), 1, -1) == Success(Log(1, -1, [Sent], None))
    ensures Open(TwoUsers(300), 1, 1) == Success(Log(1, 1, [Received], None))
  {
    var es := [Received, Sent];
    assert es[..1] == [Received];
    assert [Received][..0] == [];
    assert Query(es, 1, -1) == [Sent];
    assert Query(es, 1, 1) == [Received];
  }

  /** A known user without history gets a valid log that renders to no
      lines; an unknown one without history gets an invalid log. */
  lemma EmptyHistory()
    ensures Open(Store(map[7 := 0], [], 1), 7, 0) == Success(Log(7, 0, [], Some(true)))
    ensures RenderLog(7, []) == Success([])
    ensures Open(Store(map[7 := 0], [], 1), 8, 0) == Success(Log(8, 0, [], Some(false)))
  {
  }

  /** Amounts 0 and -100 are rejected by the constructor. */
  lemma Rejection()
    ensures NewTransaction(1, 2, 0, None) == Failure(NotPositive)
    ensures NewTransaction(1, 2, -100, None) == Failure(NotPositive)
  {
  }

  /** A self-transfer of 100 on a fresh account leaves it at 100, and the
      account still validates because its ledger row counts as received. */
  lemma SelfTransfer()
    ensures var r := Commit(Transaction(5, 5, 100, None, false, None), Store(map[5 := 0], [], 1), Env(None, true));
      r.outcome == Committed && r.store.balances[5] == 100 &&
      Open(r.store, 5, 0).Success? && Open(r.store, 5, 0).value.valid == Some(true)
  {
  }

  /** The final database commit of a transfer from 1 to 2 fails after the
      id was read back; as written the retry is a no-op and the money never
      moves, as intended the retry moves it. */
  lemma LateFailureRetry()
    ensures var t := Transaction(1, 2, 100, None, false, None);
      var s := Store(map[1 := 0, 2 := 0], [], 1);
      var failed := CommitAsWritten(t, s, Env(Some(Finalize), true));
      var retried := CommitAsWritten(failed.txn, failed.store, Env(None, true));
      retried.outcome == Skipped && retried.store == s && !retried.txn.committed
    ensures var t := Transaction(1, 2, 100, None, false, None);
      var s := Store(map[1 := 0, 2 := 0], [], 1);
      var failed := Commit(t, s, Env(Some(Finalize), true));
      var retried := Commit(failed.txn, failed.store, Env(None, true));
      retried.outcome == Committed && retried.store.balances == map[1 := -100, 2 := 100]
  {
  }

  /** The reload after the database commit of a transfer of 100 from 1 to
      2 fails and no id was read back: as written the retry books the
      transfer a second time, as intended it is skipped. */
  lemma PostCommitFailureRetry()
    ensures var t := Transaction(1, 2, 100, None, false, None);
      var s := Store(map[1 := 0, 2 := 0], [], 1);
      var failed := CommitAsWritten(t, s, Env(Some(RefreshAfter), false));
      var retried := CommitAsWritten(failed.txn, failed.store, Env(None, false));
      retried.outcome == Committed && retried.store.balances == map[1 := -200, 2 := 200] &&
      |retried.store.entries| == 2
    ensures var t := Transaction(1, 2, 100, None, false, None);
      var s := Store(map[1 := 0, 2 := 0], [], 1);
      var failed := Commit(t, s, Env(Some(RefreshAfter), false));
      var retried := Commit(failed.txn, failed.store, Env(None, false));
      retried.outcome == Skipped && retried.store.balances == map[1 := -100, 2 := 100] &&
      |retried.store.entries| == 1
  {
  }
}

=== FILE: transfer.dfy ===
/** `Transaction`: a money transfer between two users with a one-shot
    commit, as a pure transition on (transaction, store). */
module Transfer {
  import opened Wrappers
  import opened Ledger

  /** An in-memory transaction object: sender, receiver, amount in Cent,
      optional reason, the committed flag and the id read back from the
      database. */
  datatype Transaction = Transaction(
    src: Uid, dst: Uid, amount: int, reason: Option<string>,
    committed: bool, id: Option<nat>)

  /** The operations of one commit, in order; any of them can raise.
      `Refresh` is the reload of both users before the insert,
      `RefreshAfter` the reload after the database commit. */
  datatype Step = Refresh | Insert | SelectId | WriteSrc | WriteDst | Finalize | RefreshAfter

  /** How the database behaves during one commit attempt: the step that
      raises, if any, and whether `SELECT LAST_INSERT_ID()` returns exactly
      one row. This stands for the connection, which the model does not see. */
  datatype Env = Env(failAt: Option<Step>, idFound: bool)

  /** Exceptions raised by the constructor and by `commit`. */
  datatype Error =
    | NotPositive             // constructor: amount <= 0 (ValueError)
    | NegativeAmount          // commit: amount < 0 (RuntimeError)
    | EmptyAmount             // commit: amount == 0 (RuntimeError)
    | UnknownUser             // refreshing a party finds no user row
    | StoreFailure(at: Step)  // an operation raised; before `Finalize` the connection is closed uncommitted

  datatype Outcome = Committed | Skipped | Raised(error: Error)

  /** The transaction object and the database after one call of `commit`. */
  datatype CommitResult = CommitResult(txn: Transaction, store: Store, outcome: Outcome)

  /** Not yet committed and no id read back. */
  predicate Pending(t: Transaction) {
    !t.committed && t.id.None?
  }

  /** The database commit went through: either the call completed, or only
      the reload of the users after it raised. */
  predicate Finalised(o: Outcome) {
    o.Committed? || o == Raised(StoreFailure(RefreshAfter))
  }

  /** The constructor: rejects a non-positive amount, otherwise a pending
      transaction carrying exactly the given parties, amount and reason. */
  function NewTransaction(src: Uid, dst: Uid, amount: int, reason: Option<string>): (r: Result<Transaction, Error>)
    ensures r.Failure? <==> amount <= 0
    ensures r.Failure? ==> r.error == NotPositive
    ensures r.Success? ==> Pending(r.value)
    ensures r.Success? ==> r.value.src == src && r.value.dst == dst && r.value.amount == amount && r.value.reason == reason
  {
    if amount <= 0 then Failure(NotPositive)
    else Success(Transaction(src, dst, amount, reason, false, None))
  }

  /** `get()`: the id, but only once the transaction is committed. */
  function Get(t: Transaction): (r: Option<nat>) {
    if t.committed then t.id else None
  }

  /** The ledger row a commit of `t` inserts into `s`. */
  function NewEntry(t: Transaction, s: Store): (e: Entry) {
    Entry(s.nextId, t.src, t.dst, t.amount, t.reason)
  }

  /** The database after a finalised commit: one appended row and the two
      balance writes, both computed from the balances read before either
      write; for a self-transfer the second write wins. */
  function Applied(t: Transaction, s: Store): (s': Store)
    requires t.src in s.balances && t.dst in s.balances
  {
    var srcBalance := s.balances[t.src];
    var dstBalance := s.balances[t.dst];
    Store(
      s.balances[t.src := srcBalance - t.amount][t.dst := dstBalance + t.amount],
      s.entries + [NewEntry(t, s)],
      s.nextId + 1)
  }

  /** The shared prefix of both commit variants: the failures that happen
      before any id is read back. */
  function EarlyFailure(t: Transaction, s: Store, env: Env): (r: Option<Error>) {
    if env.failAt == Some(Refresh) then Some(StoreFailure(Refresh))
    else if t.src !in s.balances || t.dst !in s.balances then Some(UnknownUser)
    else if env.failAt == Some(Insert) then Some(StoreFailure(Insert))
    else if env.failAt == Some(SelectId) then Some(StoreFailure(SelectId))
    else None
  }

  /** `commit()` exactly as written: the guard also demands that no id was
      read back yet; the id is stored before the balance writes and the
      database commit, so it survives a later failure; the committed flag
      is set only after the users were reloaded, so a failure of that
      reload leaves a durable transfer behind an uncommitted object. */
  function CommitAsWritten(t: Transaction, s: Store, env: Env): (r: CommitResult)
    ensures !Finalised(r.outcome) ==> r.store == s
    ensures Finalised(r.outcome) <==>
      t.amount > 0 && Pending(t) && t.src in s.balances && t.dst in s.balances &&
      (env.failAt.None? || env.failAt == Some(RefreshAfter))
    ensures r.outcome.Committed? <==>
      t.amount > 0 && Pending(t) && env.failAt.None? && t.src in s.balances && t.dst in s.balances
    ensures Finalised(r.outcome) ==>
      r.store.entries == s.entries + [NewEntry(t, s)] && r.store.nextId == s.nextId + 1 &&
      BalancesFollow(s, r.store, NewEntry(t, s))
    ensures r.outcome.Committed? ==>
      r.txn == t.(committed := true, id := if env.idFound then Some(s.nextId) else None)
    ensures r.outcome == Skipped <==> t.amount > 0 && !Pending(t)
    ensures r.outcome == Skipped ==> r.txn == t && r.store == s
    ensures r.outcome.Raised? && r.txn != t ==>
      env.idFound && r.txn == t.(id := Some(s.nextId))
    ensures r.outcome.Raised? && r.txn != t ==>
      t.src in s.balances && t.dst in s.balances && env.failAt.Some? &&
      (env.failAt.value.WriteSrc? || env.failAt.value.WriteDst? ||
       env.failAt.value.Finalize? || env.failAt.value.RefreshAfter?)
    ensures t.amount > 0 && Pending(t) && (t.src !in s.balances || t.dst !in s.balances) &&
            env.failAt != Some(Refresh) ==>
      r == CommitResult(t, s, Raised(UnknownUser))
    ensures t.amount > 0 && Pending(t) && t.src in s.balances && t.dst in s.balances && env.idFound &&
            env.failAt.Some? && env.failAt.value in {WriteSrc, WriteDst, Finalize, RefreshAfter} ==>
      r.outcome == Raised(StoreFailure(env.failAt.value)) && r.txn == t.(id := Some(s.nextId))
    ensures t.amount < 0 ==> r == CommitResult(t, s, Raised(NegativeAmount))
    ensures t.amount == 0 ==> r == CommitResult(t, s, Raised(EmptyAmount))
  {
    if t.amount < 0 then CommitResult(t, s, Raised(NegativeAmount))
    else if t.amount == 0 then CommitResult(t, s, Raised(EmptyAmount))
    else if t.committed || t.id.Some? then CommitResult(t, s, Skipped)
    else match EarlyFailure(t, s, env)
      case Some(e) => CommitResult(t, s, Raised(e))
      case None =>
        var t' := if env.idFound then t.(id := Some(s.nextId)) else t;
        if env.failAt == Some(RefreshAfter) then CommitResult(t', Applied(t, s), Raised(StoreFailure(RefreshAfter)))
        else if env.failAt.Some? then CommitResult(t', s, Raised(StoreFailure(env.failAt.value)))
        else CommitResult(t'.(committed := true), Applied(t, s), Committed)
  }

  /** `commit()` as evidently intended: only the committed flag guards it,
      and the flag and the id are recorded as soon as the database commit
      went through. A failure before that changes nothing at all; a failure
      of the reload after it still leaves the transaction committed. */
  function Commit(t: Transaction, s: Store, env: Env): (r: CommitResult)
    ensures !Finalised(r.outcome) ==> r.txn == t && r.store == s
    ensures Finalised(r.outcome) <==>
      t.amount > 0 && !t.committed && t.src in s.balances && t.dst in s.balances &&
      (env.failAt.None? || env.failAt == Some(RefreshAfter))
    ensures r.outcome.Committed? <==>
      t.amount > 0 && !t.committed && env.failAt.None? && t.src in s.balances && t.dst in s.balances
    ensures Finalised(r.outcome) ==>
      r.store.entries == s.entries + [NewEntry(t, s)] && r.store.nextId == s.nextId + 1 &&
      BalancesFollow(s, r.store, NewEntry(t, s)) &&
      r.txn == t.(committed := true, id := if env.idFound then Some(s.nextId) else None)
    ensures r.outcome == Skipped <==> t.amount > 0 && t.committed
    ensures t.amount > 0 && !t.committed && (t.src !in s.balances || t.dst !in s.balances) &&
            env.failAt != Some(Refresh) ==>
      r == CommitResult(t, s, Raised(UnknownUser))
    ensures t.amount < 0 ==> r == CommitResult(t, s, Raised(NegativeAmount))
    ensures t.amount == 0 ==> r == CommitResult(t, s, Raised(EmptyAmount))
  {
    if t.amount < 0 then CommitResult(t, s, Raised(NegativeAmount))
    else if t.amount == 0 then CommitResult(t, s, Raised(EmptyAmount))
    else if t.committed then CommitResult(t, s, Skipped)
    else match EarlyFailure(t, s, env)
      case Some(e) => CommitResult(t, s, Raised(e))
      case None =>
        if env.failAt.Some? && env.failAt != Some(RefreshAfter) then
          CommitResult(t, s, Raised(StoreFailure(env.failAt.value)))
        else
          var id := if env.idFound then Some(s.nextId) else None;
          var t' := t.(committed := true, id := id);
          if env.failAt == Some(RefreshAfter) then CommitResult(t', Applied(t, s), Raised(StoreFailure(RefreshAfter)))
          else CommitResult(t', Applied(t, s), Committed)
  }

  /** How the two balance writes move money: for two different users the
      sender loses and the receiver gains exactly `amount` and the sum of
      all balances is kept; a self-transfer adds `amount` to the account
      and to the sum. */
  ghost predicate MovesMoney(t: Transaction, s: Store, s': Store) {
    && t.src in s.balances && t.dst in s.balances && s'.balances.Keys == s.balances.Keys
    && (t.src != t.dst ==>
          s'.balances[t.src] == s.balances[t.src] - t.amount &&
          s'.balances[t.dst] == s.balances[t.dst] + t.amount &&
          Total(s'.balances) == Total(s.balances))
    && (t.src == t.dst ==>
          s'.balances[t.src] == s.balances[t.src] + t.amount &&
          Total(s'.balances) == Total(s.balances) + t.amount)
  }

  lemma AppliedMovesMoney(t: Transaction, s: Store)
    requires t.src in s.balances && t.dst in s.balances
    ensures MovesMoney(t, s, Applied(t, s))
  {
    var m := s.balances;
    var m1 := m[t.src := m[t.src] - t.amount];
    TotalUpdate(m, t.src, m[t.src] - t.amount);
    TotalUpdate(m1, t.dst, m[t.dst] + t.amount);
  }

  /** Every finalised commit, in either variant, moves money as the two
      balance writes do. */
  lemma CommitTotal(t: Transaction, s: Store, env: Env)
    ensures Finalised(Commit(t, s, env).outcome) ==> MovesMoney(t, s, Commit(t, s, env).store)
    ensures Finalised(CommitAsWritten(t, s, env).outcome) ==> MovesMoney(t, s, CommitAsWritten(t, s, env).store)
  {
    if t.src in s.balances && t.dst in s.balances {
      AppliedMovesMoney(t, s);
    }
  }

  /** Conservation of money holds exactly for transfers between two
      different users, in either variant. */
  lemma ConservationIffDistinct(t: Transaction, s: Store, env: Env)
    ensures Finalised(Commit(t, s, env).outcome) ==>
      (Total(Commit(t, s, env).store.balances) == Total(s.balances) <==> t.src != t.dst)
    ensures Finalised(CommitAsWritten(t, s, env).outcome) ==>
      (Total(CommitAsWritten(t, s, env).store.balances) == Total(s.balances) <==> t.src != t.dst)
  {
    CommitTotal(t, s, env);
  }

  /** A second `commit()` after a successful one does nothing: no second
      ledger row, no balance change, the same id. For the intended variant
      this also holds after a failure of the reload that follows the
      database commit. */
  lemma CommitTwice(t: Transaction, s: Store, env: Env, env2: Env)
    ensures var r := Commit(t, s, env);
      Finalised(r.outcome) ==> Commit(r.txn, r.store, env2) == CommitResult(r.txn, r.store, Skipped)
    ensures var r := CommitAsWritten(t, s, env);
      r.outcome.Committed? ==> CommitAsWritten(r.txn, r.store, env2) == CommitResult(r.txn, r.store, Skipped)
  {
  }

  /** A freshly constructed transaction is falsy and `get()` yields no id;
      after a commit it is truthy and `get()` yields the id of the row it
      appended, when the database reported one. */
  lemma GetAfterCommit(src: Uid, dst: Uid, amount: int, reason: Option<string>, s: Store, env: Env)
    requires NewTransaction(src, dst, amount, reason).Success?
    ensures var t := NewTransaction(src, dst, amount, reason).value;
      !t.committed && Get(t) == None &&
      (CommitAsWritten(t, s, env).outcome.Committed? ==>
        var r := CommitAsWritten(t, s, env);
        r.txn.committed &&
        (env.idFound ==> Get(r.txn) == Some(r.store.entries[|r.store.entries| - 1].id)) &&
        (!env.idFound ==> Get(r.txn) == None))
  {
  }

  /** The two variants agree on every pending transaction unless a balance
      write, the database commit or the reload after it fails. */
  lemma AsWrittenAgreesWhenNoLateFailure(t: Transaction, s: Store, env: Env)
    requires Pending(t)
    requires env.failAt.Some? ==> env.failAt.value in {Refresh, Insert, SelectId}
    ensures CommitAsWritten(t, s, env) == Commit(t, s, env)
  {
  }

  /** As written, a failure of a balance write or of the database commit
      after the id was read back leaves the transaction uncommitted but
      with an id, and from then on every `commit()` is a silent no-op: the
      transfer can never happen, although the database rolled the attempt
      back. */
  lemma RetryBlockedAfterLateFailure(t: Transaction, s: Store, f: Step, env: Env)
    requires Pending(t) && t.amount > 0
    requires t.src in s.balances && t.dst in s.balances
    requires f in {WriteSrc, WriteDst, Finalize}
    ensures var r := CommitAsWritten(t, s, Env(Some(f), true));
      r.outcome == Raised(StoreFailure(f)) && r.store == s && !r.txn.committed &&
      CommitAsWritten(r.txn, s, env) == CommitResult(r.txn, s, Skipped)
  {
  }

  /** As written, when `LAST_INSERT_ID()` returned no row and the reload of
      the users after the database commit raises, the transfer is durable
      but the object stays pending, so a retry that meets no failure
      inserts a second row and moves the money a second time. */
  lemma DuplicateAfterPostCommitFailure(t: Transaction, s: Store)
    requires Pending(t) && t.amount > 0
    requires t.src in s.balances && t.dst in s.balances && t.src != t.dst
    ensures var r := CommitAsWritten(t, s, Env(Some(RefreshAfter), false));
      var r2 := CommitAsWritten(r.txn, r.store, Env(None, false));
      r.outcome == Raised(StoreFailure(RefreshAfter)) && r.txn == t &&
      r2.outcome == Committed &&
      |r2.store.entries| == |s.entries| + 2 &&
      r2.store.entries[|s.entries|] == NewEntry(t, s) &&
      r2.store.entries[|s.entries| + 1] == NewEntry(t, r.store) &&
      r2.store.balances[t.dst] == s.balances[t.dst] + 2 * t.amount &&
      r2.store.balances[t.src] == s.balances[t.src] - 2 * t.amount
  {
  }

  /** As intended, after a failure before the database commit a retry
      behaves exactly like a first attempt (and commits when nothing
      fails); after a failure of the reload that follows it, a retry is
      skipped, so the transfer happens exactly once. */
  lemma RetryAfterFailure(t: Transaction, s: Store, env: Env, env2: Env)
    requires Commit(t, s, env).outcome.Raised?
    ensures var r := Commit(t, s, env);
      !Finalised(r.outcome) ==>
        Commit(r.txn, r.store, env2) == Commit(t, s, env2) &&
        (t.amount > 0 && env2.failAt.None? && t.src in s.balances && t.dst in s.balances ==>
          Commit(r.txn, r.store, env2).outcome.Committed?)
    ensures var r := Commit(t, s, env);
      Finalised(r.outcome) ==>
        r.txn.committed && Commit(r.txn, r.store, env2) == CommitResult(r.txn, r.store, Skipped)
  {
  }
}

=== FILE: wrappers.dfy ===
/** Failure-compatible wrappers used across the model: `Option` for Python's
    `None`-or-value, `Result` for a value-or-raised-exception. */
module Wrappers {

  datatype Option<+T> = None | Some(value: T)

  datatype Result<+R, +E> = Success(value: R) | Failure(error: E)
}
